=== FILE: README.md ===
# Translation string pipeline (Thelia `Translation` action)

This project models the pipeline behind Thelia's back-office translation
screens, as `core/lib/Thelia/Action/Translation.php` implements it. It has four
parts:

- `walkDir` walks a directory tree. The walk mode chooses the file extensions to
  examine. Every translatable literal found in those files goes into a table
  keyed by the hash of the literal. Each entry records the files the literal
  occurs in, its unescaped text, the translation the translator gives for it,
  and whether the text contains a `$`. The walk returns the number of new texts
  it met.
- The per-match insertion step. A key already in the table only gains the
  current file's path. A new key is counted, its literal is unescaped, and the
  entry is stored unless the text is empty.
- `writeTranslationFile` writes a PHP file that returns an array of text to
  translation. The entries are sorted by text. Entries whose translation is
  empty to PHP's `empty()` are skipped, and quotes are escaped.
- `normalizePath` turns a file's resolved path into the path recorded in an
  entry. Backslashes become slashes, the installation root is removed, and
  leading slashes are trimmed.

Modules:

- `PhpStrings` (`php_strings.dfy`) holds the PHP string operations the
  pipeline relies on:
  - `str_replace` of `\q` by `q` (`Unescape`);
  - `str_replace` of `'` by `\'` (`Escape`);
  - backslash to slash (`ForwardSlashes`);
  - removing every occurrence of a needle (`RemoveAll`);
  - `ltrim($s, '/')` (`LTrimSlashes`).
- `Paths` (`paths.dfy`) models `normalizePath`.
- `Scanner` (`scanner.dfy`) models the directory tree, the string table, the
  insertion step, the loop over a file's matches and the walk itself.
- `ScannerFacts` (`scanner_facts.dfy`) proves what a walk guarantees. It works
  through the sequence of files the walk examines, in walk order.
- `Writer` (`writer.dfy`) models `writeTranslationFile`.
- `ScannerExamples` and `WriterExamples` work through small concrete inputs,
  including the three quirks below.

Choices made in the model:

- The regular expression is not re-implemented. Each file carries its sequence
  of matches, and a match is the delimiter (group 1) plus the raw literal body
  (group 2).
- The md5 key is modelled by the raw literal itself, which is what an injective
  hash amounts to.
- The following are parameters:
  - the translator, as a function of text, domain and locale;
  - the resolved path of each file (what `realpath` returns);
  - the installation root (`THELIA_ROOT`);
  - whether the output file can be opened.
- The walk mode is a datatype with the two recognised modes and an
  `UnknownMode` that carries any other value.

The model keeps three quirks of the code on purpose:

1. The key is the raw literal, taken before unescaping (line 122 against
   line 136). The same text written with different escapes gives two entries.
2. The count is incremented before the empty check (line 129 against
   line 139). An empty literal is counted every time it is met and is never
   stored.
3. The `continue` at line 140 skips the `$idx++` at line 157. After an empty
   literal, later literals of the same file are unescaped with the delimiter of
   an earlier match.

Two consequences of these quirks, stated against the code:

- The docblock of `walkDir` (line 59) calls its result the total number of
  translatable texts. Lines 129 and 139-140 also count every empty literal met
  under a new key, which is never stored. `ScannerFacts.InsertMatchesCount`
  states the exact count.
- The key hashes the raw `$match` at line 122, before the unescaping at
  line 136. `ScannerExamples.KeyTakenBeforeUnescaping` shows two entries with
  the same text.

## Model

| member | source | states |
|---|---|---|
| PhpStrings.Unescape | core/lib/Thelia/Action/Translation.php:134-136 | Unescaping never lengthens a literal and empties only the empty literal. It introduces no character absent from the literal, and every character other than a backslash survives; UnescapeKeepsOthers gives the exact counts. |
| PhpStrings.Escape | core/lib/Thelia/Action/Translation.php:198-200 | Escaping keeps every character and introduces none but backslashes; EscapeAddsOnlyBackslashes gives the exact counts. Every quote in the result is preceded by a backslash. |
| PhpStrings.EscapeWithoutQuote | core/lib/Thelia/Action/Translation.php:198-200 | Escaping leaves a string without a single quote unchanged. |
| PhpStrings.UnescapeEscape | core/lib/Thelia/Action/Translation.php:134-200 | For every string, escaping it as the writer does and then unescaping it as the scanner does for a single-quoted literal gives the string back. |
| PhpStrings.UnescapeKeepsOthers | core/lib/Thelia/Action/Translation.php:136 | Unescaping drops only backslashes: every other character occurs in the result exactly as often as in the literal. |
| PhpStrings.EscapeAddsOnlyBackslashes | core/lib/Thelia/Action/Translation.php:198-200 | Escaping adds only backslashes: every other character occurs in the result exactly as often as in the text. |
| PhpStrings.UnescapeIsLossy | core/lib/Thelia/Action/Translation.php:136 | Unescaping is not injective. Two different raw literals (`\'` and `'`) give the same text, which is why equal texts can sit under two keys. |
| PhpStrings.ForwardSlashes | core/lib/Thelia/Action/Translation.php:221-224 | Replacing backslashes by slashes keeps the length and leaves no backslash. |
| PhpStrings.RemoveAll | core/lib/Thelia/Action/Translation.php:221-225 | Removing the root never lengthens the path and introduces no character. |
| PhpStrings.RemoveAllAbsent | core/lib/Thelia/Action/Translation.php:221-225 | Removing a needle that does not occur leaves the string unchanged. |
| PhpStrings.LTrimSlashes | core/lib/Thelia/Action/Translation.php:227 | The result does not start with `/`, is a suffix of the input, and only slashes were dropped. |
| Paths.NormalizePath | core/lib/Thelia/Action/Translation.php:219-228 | The recorded path never starts with `/` and never contains a backslash. When the normalised root does not occur in the normalised path, the result is that path with leading slashes trimmed. |
| Paths.NormalizeBelowRoot | core/lib/Thelia/Action/Translation.php:219-228 | A file below the root, joined with either separator, is recorded as its relative path with slashes, provided the root does not occur again after it. |
| Scanner.AddPath | core/lib/Thelia/Action/Translation.php:125-127 | The path is in the result, and nothing else is added. The old list is a prefix of the result, so a list without duplicates stays without duplicates. |
| Scanner.Step | core/lib/Thelia/Action/Translation.php:121-157 | For a known key: count 0, no other entry touched, text, translation and dollar flag kept, and the path added to `files` only if absent. For a new key: count 1, and the table is unchanged if the literal is empty. Otherwise the entry is stored with files `[path]`, the text unescaped for the given delimiter, the dollar flag true exactly when the text has a `$`, and the translator's answer for that text. |
| Scanner.InsertMatches | core/lib/Thelia/Action/Translation.php:119-158 | The keys after a file are the keys before plus exactly the non-empty raw literals of the file. |
| Scanner.InsertMatchesByPosition | core/lib/Thelia/Action/Translation.php:121-158 | The loop with each literal read with its own delimiter adds the same keys. This is the reference against which the lagging index is compared. |
| Scanner.AllowedExtensions | core/lib/Thelia/Action/Translation.php:65-72 | The PHP mode examines `php` files alone. The template mode examines exactly `html`, `tpl`, `xml` and `txt`, and never `php`. |
| Scanner.ScanFile | core/lib/Thelia/Action/Translation.php:101-116 | An examined file adds exactly its non-empty literals as keys. A file with another extension, or whose content PHP treats as false, changes nothing and counts 0. |
| Scanner.Walk | core/lib/Thelia/Action/Translation.php:82-168 | The walk never removes a key. A node that cannot be iterated (an unopenable directory, or a file) gives count 0 and the table unchanged. So does a directory whose entries are all files the mode does not examine. |
| Scanner.WalkEntries | core/lib/Thelia/Action/Translation.php:86-105 | Iterating a directory's entries never removes a key. Entries that are all files the mode does not examine give count 0 and the table unchanged. |
| Scanner.WalkDir | core/lib/Thelia/Action/Translation.php:61-80 | The walk fails with the mode as its error exactly when the mode is neither of the two recognised ones, before anything is traversed. |
| ScannerFacts.InsertMatchesExtends | core/lib/Thelia/Action/Translation.php:124-154 | A file never removes or rewrites an entry. Text, translation and dollar flag are kept, and `files` only grows at the end. |
| ScannerFacts.InsertMatchesWellFormed | core/lib/Thelia/Action/Translation.php:122-154 | If every entry has a non-empty duplicate-free list of recorded paths, a non-empty text that unescapes its key, the matching dollar flag and the translator's answer, it still does after a file. |
| ScannerFacts.InsertMatchesCount | core/lib/Thelia/Action/Translation.php:129-141 | In a table without the empty key, a file's count is the number of entries it adds plus the number of empty literals it meets. |
| ScannerFacts.InsertMatchesCountsNewKeys | core/lib/Thelia/Action/Translation.php:124-141 | A file's count is at least the number of entries it adds, whatever the table. |
| ScannerFacts.InsertMatchesFiles | core/lib/Thelia/Action/Translation.php:124-144 | After a file, a path is listed for a key exactly when it was listed before, or when it is this file's path and the key is one of the file's non-empty literals. |
| ScannerFacts.QuotesAlignWithoutEmptyLiterals | core/lib/Thelia/Action/Translation.php:119-158 | When a file has no empty literal, the quote index never lags. The loop then equals the loop that reads each literal with its own delimiter. |
| ScannerFacts.ScannedFiles | core/lib/Thelia/Action/Translation.php:86-105 | Every file the walk examines has an allowed extension and readable content. |
| ScannerFacts.WalkIsScanOfFiles | core/lib/Thelia/Action/Translation.php:86-106 | Walking a tree gives the same count and table as inserting, one file after the other, the matches of the files the walk examines. Each directory's count is the sum over its entries. |
| ScannerFacts.ScanAllKeeps | core/lib/Thelia/Action/Translation.php:92-158 | Scanning files adds exactly their non-empty literals as keys, keeps every entry, and preserves the table invariant. |
| ScannerFacts.ScanAllCount | core/lib/Thelia/Action/Translation.php:63-141 | The count of several files is at least the number of entries they add. In a table without the empty key, it is exactly that plus their empty literals. |
| ScannerFacts.WalkDirSummary | core/lib/Thelia/Action/Translation.php:61-168 | In a recognised mode the walk succeeds, and only files with an allowed extension add keys. The keys added are exactly their non-empty literals. No entry is removed or rewritten, the table invariant is kept, and the count is at least the entries added. In a table without the empty key, the count is exactly the entries added plus the empty literals. |
| ScannerFacts.UnreadableDirectoryIsSkipped | core/lib/Thelia/Action/Translation.php:82-168 | A directory that cannot be opened gives count 0 and leaves the table unchanged, without an error. |
| ScannerFacts.SameScannedFilesSameWalk | core/lib/Thelia/Action/Translation.php:86-106 | Two directory listings that examine the same files give the same walk result. |
| ScannerFacts.UnscannedFileChangesNothing | core/lib/Thelia/Action/Translation.php:101-105 | A file the mode does not examine can be placed anywhere in a directory without changing the count or the table. |
| ScannerExamples.KeyTakenBeforeUnescaping | core/lib/Thelia/Action/Translation.php:122-136 | `'it\'s'` and `"it's"` give two entries with the same text `it's`, and a count of 2. |
| ScannerExamples.RepeatedEmptyLiteralCountedEachTime | core/lib/Thelia/Action/Translation.php:129-141 | Two empty literals count 2 and store nothing. |
| ScannerExamples.EmptyLiteralShiftsQuote | core/lib/Thelia/Action/Translation.php:134-157 | After an empty literal, `"a\"b"` is stored with its backslash. Read with its own delimiter it would be `a"b`. |
| ScannerExamples.SameTextInTwoFiles | core/lib/Thelia/Action/Translation.php:86-158 | Two PHP files that both translate `"Hello"` give one entry listing both recorded paths, and a count of 1. |
| ScannerExamples.OtherExtensionIgnored | core/lib/Thelia/Action/Translation.php:101-104 | A `css` file is examined in neither mode and changes nothing. |
| Writer.TextLe | core/lib/Thelia/Action/Translation.php:193 | The empty text sorts first. When the first characters differ they decide the order, and a text never sorts before one whose first character is smaller. |
| Writer.TextLeIsStrcmpLe | core/lib/Thelia/Action/Translation.php:193 | The comparison holds exactly when the first text is a prefix of the second, or has the smaller character at the first position where they differ. This is the `strcmp` order. |
| Writer.TextLeTotal | core/lib/Thelia/Action/Translation.php:193 | Any two texts are comparable. |
| Writer.TextLeTransitive | core/lib/Thelia/Action/Translation.php:193 | The comparison is transitive. |
| Writer.InsertByText | core/lib/Thelia/Action/Translation.php:193 | Inserting into a list sorted by text keeps it sorted and adds exactly the one entry. |
| Writer.SortByText | core/lib/Thelia/Action/Translation.php:193 | The result is sorted by text and is a permutation of the input. |
| Writer.Untranslated | core/lib/Thelia/Action/Translation.php:197 | `empty()` on the looked-up translation: a missing key is empty, so is a present `''`, every translation of two or more characters is not, and of the one-character translations only `0` is. |
| Writer.KeepTranslated | core/lib/Thelia/Action/Translation.php:195-197 | An entry occurs in the result as often as in the input when its translation is non-empty, and otherwise not at all. The result is a subsequence of the input, so the input order is kept, and a sorted input gives a sorted result. |
| Writer.EmittedEntries | core/lib/Thelia/Action/Translation.php:189-204 | The emitted entries are in nondecreasing order of text. Each entry with a non-empty translation appears once per occurrence, and no entry whose translation is missing, `''` or `'0'` appears. |
| Writer.EntryLine | core/lib/Thelia/Action/Translation.php:198-202 | A line starts with four spaces and a quote, ends with `',\n`, keeps every character of the text and the translation, and is exactly 14 characters longer than the escaped text and translation together, so at least 14 longer than the two. |
| Writer.Body | core/lib/Thelia/Action/Translation.php:195-204 | Nothing is written between header and footer exactly when no entry is emitted. The body is at least 14 characters per emitted entry, the fixed part of one line. |
| Writer.BodyIsConcat | core/lib/Thelia/Action/Translation.php:195-204 | The lines are written one per emitted entry, in emitted order, each the entry's escaped text and translation. |
| Writer.WriteTranslationFile | core/lib/Thelia/Action/Translation.php:185-216 | The write fails with the file's path exactly when the file cannot be opened. Otherwise the content starts with `<?php\n\nreturn array(\n` and ends with `);\n`. |
| Writer.WrittenLines | core/lib/Thelia/Action/Translation.php:186-206 | The content is the header, then one line `    '<text>' => '<translation>',\n` per emitted entry in emitted order, both escaped, then the footer. |
| WriterExamples.EmptyTranslationOmitted | core/lib/Thelia/Action/Translation.php:195-204 | With translations `{h1: '', h2: 'bee'}`, only the line for `B` is written. |
| WriterExamples.ZeroTranslationOmitted | core/lib/Thelia/Action/Translation.php:197 | A translation `'0'` counts as empty, and the file holds no line. |
| WriterExamples.LinesOrderedAndEscaped | core/lib/Thelia/Action/Translation.php:193-202 | Lines follow the order of the texts, not of the keys. Quotes are escaped in both text and translation. |

## Left out

- The PCRE patterns and `preg_match_all` (lines 66, 70, 112-116): each file's matches are an input (delimiter, raw body). Which literals the lookbehind patterns capture is not modelled.
- md5 (line 122): the raw literal is the key, and collisions are ignored.
- `realpath` and `THELIA_ROOT` (lines 222, 224): the resolved path and the root are inputs.
- Filesystem I/O: `DirectoryIterator`, `file_get_contents` and `fopen`/`fwrite`/`fclose`. A directory has a readable flag, and a file has a readable flag meaning that reading it gives content PHP treats as true (neither empty nor exactly `0`, the test of line 105). The written file's content is modelled as a string, and whether `fopen` succeeds is an input.
- The `Filesystem::mkdir` branch (lines 177-183): creating the missing directory is not modelled. Nor is the `IOException` that `mkdir` throws when it cannot create it, a second error outcome besides the failure to open the file. Whether the file can be opened is an input.
- An exception thrown by the directory iterator while iterating, rather than when opening: it would keep the count of the entries already walked in the caller's table. Only the failure to open a directory is modelled.
- `Tlog` logging, and the `Translator` singleton beyond its lookup: the translator is a function parameter that never falls back to another locale. The error messages built with the translator are reduced to the error's data (the mode, the path).
- The `.` and `..` entries (lines 87-89): they are skipped, so the tree does not represent them.
- The order of equal texts after `asort`: PHP leaves it unspecified. The model inserts stably, and the proved properties do not depend on it.
- Writer.SortByText: texts are compared byte-wise like `strcmp`. PHP's `SORT_REGULAR` compares two numeric strings as numbers, and that is not modelled.
- Scanner.AddPath: `in_array` with loose comparison is modelled as exact string membership. Two recorded paths that PHP would compare equal as numbers are not merged.
- PHP byte strings are modelled as Dafny strings, one character per byte. `strcmp` compares bytes, and on this reading byte order and character order agree.
- The `$strings` array handed to the event is modelled as a `map` keyed by the raw literal, which does not keep PHP's insertion order. Nothing in the modelled code reads that order.
- Event wiring (`getTranslatableStrings`, `getTranslatedStrings`, `getSubscribedEvents`): the writer takes the texts as an ordered sequence of (key, text) pairs and the translations as a map.

=== FILE: paths.dfy ===
/**
 * `Translation::normalizePath`: turns the resolved path of a scanned file into
 * the path recorded in a string's `files` list, relative to the installation
 * root. The resolution of the path (`realpath`) and the root constant are
 * inputs here.
 */
module Paths {
  import opened PhpStrings

  /** A path as it is recorded in the string table: no backslash and no
      leading slash. */
  predicate IsRecordedPath(p: string)
  {
    '\\' !in p && (p == [] || p[0] != '/')
  }

  /** Both strings get their backslashes turned into slashes, every occurrence
      of the root is removed from the path, and leading slashes are trimmed. */
  function NormalizePath(resolvedPath: string, root: string): (r: string)
    ensures IsRecordedPath(r)
    ensures !Contains(ForwardSlashes(resolvedPath), ForwardSlashes(root)) ==>
              r == LTrimSlashes(ForwardSlashes(resolvedPath))
  {
    var path := ForwardSlashes(resolvedPath);
    var needle := ForwardSlashes(root);
    assert !Contains(path, needle) ==> RemoveAll(path, needle) == path by {
      if !Contains(path, needle) {
        RemoveAllAbsent(path, needle);
      }
    }
    LTrimSlashes(RemoveAll(path, needle))
  }

  /** A file below the root, written with either separator, is recorded as its
      path relative to the root, with slashes as separators, provided the root
      does not occur again further along the path. */
  lemma NormalizeBelowRoot(root: string, sep: char, rel: string)
    requires root != [] && (sep == '/' || sep == '\\')
    requires rel == [] || ForwardSlashes(rel)[0] != '/'
    requires !Contains("/" + ForwardSlashes(rel), ForwardSlashes(root))
    ensures NormalizePath(root + [sep] + rel, root) == ForwardSlashes(rel)
  {
    var fr := ForwardSlashes(root);
    var tail := "/" + ForwardSlashes(rel);
    SlashesOfJoin(root, sep, rel);
    assert NormalizePath(root + [sep] + rel, root) == LTrimSlashes(RemoveAll(fr + tail, fr));
    assert RemoveAll(fr + tail, fr) == RemoveAll(tail, fr) by {
      RemoveLeadingNeedle(fr, tail);
    }
    RemoveAllAbsent(tail, fr);
    assert LTrimSlashes(tail) == LTrimSlashes(tail[1..]);
    assert tail[1..] == ForwardSlashes(rel);
  }

  lemma SlashesOfJoin(root: string, sep: char, rel: string)
    requires sep == '/' || sep == '\\'
    ensures ForwardSlashes(root + [sep] + rel) == ForwardSlashes(root) + ("/" + ForwardSlashes(rel))
  {
    ForwardSlashesConcat(root + [sep], rel);
    ForwardSlashesConcat(root, [sep]);
    assert ForwardSlashes([sep]) == "/";
  }

  lemma RemoveLeadingNeedle(needle: string, tail: string)
    requires needle != []
    ensures RemoveAll(needle + tail, needle) == RemoveAll(tail, needle)
  {
    assert (needle + tail)[..|needle|] == needle;
    assert (needle + tail)[|needle|..] == tail;
  }
}

=== FILE: php_strings.dfy ===
/**
 * The PHP string built-ins the translation action relies on, written out with
 * the semantics PHP gives them: `str_replace` finds its needle left to right,
 * replaces non-overlapping occurrences and never rescans what it produced;
 * `ltrim` drops a leading run of the listed characters.
 */
module PhpStrings {

  /** `str_replace("\\$quote", $quote, $s)`: every backslash immediately
      followed by `quote` becomes the bare `quote`. This is how the scanner
      undoes the escaping of the delimiter inside a matched literal. */
  function Unescape(s: string, quote: char): (r: string)
    ensures |r| <= |s|
    ensures r == [] <==> s == []
    ensures forall c :: c in r ==> c in s
    ensures forall c :: c in s && c != '\\' ==> c in r
    decreases |s|
  {
    if s == [] then []
    else if |s| >= 2 && s[0] == '\\' && s[1] == quote then [quote] + Unescape(s[2..], quote)
    else [s[0]] + Unescape(s[1..], quote)
  }

  /** `str_replace("'", "\'", $s)`: the writer's escaping of a text before it
      is placed between single quotes. */
  function Escape(s: string): (r: string)
    ensures |r| >= |s|
    ensures forall c :: c in s ==> c in r
    ensures forall c :: c in r && c != '\\' ==> c in s
    ensures forall i :: 0 <= i < |r| && r[i] == '\'' ==> 0 < i && r[i - 1] == '\\'
    decreases |s|
  {
    if s == [] then []
    else if s[0] == '\'' then "\\'" + Escape(s[1..])
    else [s[0]] + Escape(s[1..])
  }

  /** Unescaping drops only backslashes: every other character occurs in
      the result exactly as often as in the literal. */
  lemma {:induction false} UnescapeKeepsOthers(s: string, quote: char)
    ensures forall c :: c != '\\' ==> multiset(Unescape(s, quote))[c] == multiset(s)[c]
    decreases |s|
  {
    if s == [] {
    } else if |s| >= 2 && s[0] == '\\' && s[1] == quote {
      UnescapeKeepsOthers(s[2..], quote);
      assert s == [s[0]] + [s[1]] + s[2..];
    } else {
      UnescapeKeepsOthers(s[1..], quote);
      assert s == [s[0]] + s[1..];
    }
  }

  /** Escaping adds only backslashes: every other character occurs in the
      result exactly as often as in the text. */
  lemma {:induction false} EscapeAddsOnlyBackslashes(s: string)
    ensures forall c :: c != '\\' ==> multiset(Escape(s))[c] == multiset(s)[c]
    decreases |s|
  {
    if s == [] {
    } else {
      EscapeAddsOnlyBackslashes(s[1..]);
      assert s == [s[0]] + s[1..];
      if s[0] == '\'' {
        assert Escape(s) == ['\\', '\''] + Escape(s[1..]);
      } else {
        assert Escape(s) == [s[0]] + Escape(s[1..]);
      }
    }
  }

  /** A text without a single quote is written as it is. */
  lemma {:induction false} EscapeWithoutQuote(s: string)
    requires '\'' !in s
    ensures Escape(s) == s
    decreases |s|
  {
    if s != [] {
      EscapeWithoutQuote(s[1..]);
    }
  }

  /** Unescaping with the single-quote delimiter undoes the writer's escaping,
      whatever the text: no information is lost on the way out. */
  lemma {:induction false} UnescapeEscape(s: string)
    ensures Unescape(Escape(s), '\'') == s
    decreases |s|
  {
    if s == [] {
    } else {
      var e := Escape(s[1..]);
      UnescapeEscape(s[1..]);
      if s[0] == '\'' {
        assert Escape(s) == "\\'" + e;
        assert Escape(s)[2..] == e;
      } else {
        assert Escape(s) == [s[0]] + e;
        assert Escape(s)[1..] == e;
        assert e != [] ==> e[0] != '\'';
      }
    }
  }

  /** The opposite direction fails: unescaping is lossy, since an escaped and
      a bare delimiter give the same text, and escaping that text gives the
      escaped form back for both. */
  lemma UnescapeIsLossy()
    ensures Unescape("\\'", '\'') == Unescape("'", '\'') == "'"
    ensures Escape(Unescape("'", '\'')) != "'"
  {
    assert Unescape("'", '\'') == ['\''] + Unescape("", '\'');
    assert Escape("'") == "\\'" + Escape("");
  }

  /** `str_replace('\\', '/', $s)`. */
  function ForwardSlashes(s: string): (r: string)
    ensures |r| == |s|
    ensures '\\' !in r
  {
    seq(|s|, i requires 0 <= i < |s| => if s[i] == '\\' then '/' else s[i])
  }

  lemma ForwardSlashesConcat(a: string, b: string)
    ensures ForwardSlashes(a + b) == ForwardSlashes(a) + ForwardSlashes(b)
  {
    assert forall i :: 0 <= i < |a + b| ==> ForwardSlashes(a + b)[i] == (ForwardSlashes(a) + ForwardSlashes(b))[i];
  }

  lemma ForwardSlashesKeepsSlashFree(s: string)
    requires '\\' !in s
    ensures ForwardSlashes(s) == s
  {
    assert forall i :: 0 <= i < |s| ==> s[i] != '\\';
  }

  /** `needle` occurs in `s` starting at position `i`. */
  predicate OccursAt(s: string, needle: string, i: nat)
  {
    i + |needle| <= |s| && s[i..i + |needle|] == needle
  }

  predicate Contains(s: string, needle: string)
  {
    exists i: nat :: i <= |s| && OccursAt(s, needle, i)
  }

  /** `str_replace($needle, '', $s)`. PHP returns the subject unchanged for
      an empty needle. */
  function RemoveAll(s: string, needle: string): (r: string)
    ensures |r| <= |s|
    ensures forall c :: c in r ==> c in s
    decreases |s|
  {
    if needle == [] || |s| < |needle| then s
    else if s[..|needle|] == needle then RemoveAll(s[|needle|..], needle)
    else [s[0]] + RemoveAll(s[1..], needle)
  }

  /** Removing a needle that does not occur changes nothing. */
  lemma {:induction false} RemoveAllAbsent(s: string, needle: string)
    requires !Contains(s, needle)
    ensures RemoveAll(s, needle) == s
    decreases |s|
  {
    if needle == [] || |s| < |needle| {
    } else {
      assert !OccursAt(s, needle, 0);
      assert s[..|needle|] != needle;
      forall i: nat | i <= |s[1..]| && OccursAt(s[1..], needle, i)
        ensures false
      {
        assert s[1..][i..i + |needle|] == s[i + 1..i + 1 + |needle|];
        assert OccursAt(s, needle, i + 1);
      }
      RemoveAllAbsent(s[1..], needle);
    }
  }

  /** `ltrim($s, '/')`. */
  function LTrimSlashes(s: string): (r: string)
    ensures r == [] || r[0] != '/'
    ensures |r| <= |s| && r == s[|s| - |r|..]
    ensures forall j :: 0 <= j < |s| - |r| ==> s[j] == '/'
    decreases |s|
  {
    if s != [] && s[0] == '/' then LTrimSlashes(s[1..]) else s
  }
}

=== FILE: scanner.dfy ===
/**
 * `Translation::walkDir`: the recursive walk that collects translatable
 * strings from a directory tree into a table keyed by the hash of the raw
 * matched literal.
 *
 * The regular expression is not re-implemented: each file carries the
 * sequence of its matches, a match being the delimiter captured by group 1
 * and the raw literal body captured by group 2. The md5 key is modelled by
 * the raw body itself, which is what an injective hash amounts to. The
 * translator is a function of (text, domain, locale) that never falls back
 * to another locale.
 */
module Scanner {
  import opened PhpStrings
  import Paths

  /** The walk mode carried by the translation event. Values other than the
      two recognised constants are kept so that the error can name them. */
  datatype WalkMode = WalkModePhp | WalkModeTemplate | UnknownMode(value: string)

  /** The delimiter of a matched literal: the pattern only opens a literal
      with a single or a double quote. */
  type Quote = c: char | c == '\'' || c == '"' witness '\''

  datatype Match = Match(quote: Quote, raw: string)

  /** A directory entry. `readable` on a directory says whether it can be
      opened for iteration; on a file, whether reading it yields content
      PHP treats as true (neither empty nor exactly `0`). `path` is the
      resolved path of the file. The `.` and `..` entries are not
      represented. */
  datatype Node =
    | Dir(readable: bool, children: seq<Node>)
    | File(path: string, ext: string, readable: bool, matches: seq<Match>)

  /** One row of the string table. */
  datatype Entry = Entry(files: seq<string>, text: string, translation: string, dollar: bool)

  /** Keyed by the raw matched literal (the md5 of it, in the source). */
  type Table = map<string, Entry>

  datatype Walked = Walked(count: nat, strings: Table)

  datatype ScanResult = Scanned(count: nat, strings: Table) | InvalidWalkMode(mode: WalkMode)

  /** What stays fixed during one walk: the extensions the mode scans, the
      locale and domain of the lookups, the installation root, and the
      translator. */
  datatype Context = Context(
    exts: seq<string>,
    locale: string,
    domain: string,
    root: string,
    translate: (string, string, string) -> string)

  predicate IsValidMode(mode: WalkMode)
  {
    mode.WalkModePhp? || mode.WalkModeTemplate?
  }

  /** The extensions a mode examines: PHP sources alone, or the four
      template kinds and never a PHP source. */
  function AllowedExtensions(mode: WalkMode): (r: seq<string>)
    requires IsValidMode(mode)
    ensures r != []
    ensures "php" in r <==> mode.WalkModePhp?
    ensures mode.WalkModePhp? ==> forall e :: e in r ==> e == "php"
    ensures mode.WalkModeTemplate? ==> forall e :: e in r <==> e == "html" || e == "tpl" || e == "xml" || e == "txt"
  {
    if mode.WalkModePhp? then ["php"] else ["html", "tpl", "xml", "txt"]
  }

  predicate NoDuplicates(s: seq<string>)
  {
    forall i, j :: 0 <= i < j < |s| ==> s[i] != s[j]
  }

  /** Appends `path` to a `files` list unless it is already there. */
  function AddPath(files: seq<string>, path: string): (r: seq<string>)
    ensures path in r
    ensures forall p :: p in r <==> p in files || p == path
    ensures |files| <= |r| && r[..|files|] == files
    ensures NoDuplicates(files) ==> NoDuplicates(r)
  {
    if path in files then files else files + [path]
  }

  /** Every entry of `t` is kept by `u`, with the same text, translation and
      dollar flag, and with its `files` list only extended at the end. */
  ghost predicate Extends(t: Table, u: Table)
  {
    && t.Keys <= u.Keys
    && forall k :: k in t ==>
         && u[k].text == t[k].text
         && u[k].translation == t[k].translation
         && u[k].dollar == t[k].dollar
         && |t[k].files| <= |u[k].files|
         && u[k].files[..|t[k].files|] == t[k].files
  }

  /** What every entry the walk stores satisfies. */
  ghost predicate WellFormedEntry(ctx: Context, k: string, e: Entry)
  {
    && e.files != []
    && NoDuplicates(e.files)
    && (forall p :: p in e.files ==> Paths.IsRecordedPath(p))
    && e.text != []
    && (e.text == Unescape(k, '\'') || e.text == Unescape(k, '"'))
    && e.dollar == ('$' in e.text)
    && e.translation == ctx.translate(e.text, ctx.domain, ctx.locale)
  }

  ghost predicate WellFormed(ctx: Context, t: Table)
  {
    forall k :: k in t ==> WellFormedEntry(ctx, k, t[k])
  }

  /** The treatment of one match in a file whose recorded path is `path`;
      `quote` is the delimiter the source reads for it. */
  function Step(ctx: Context, path: string, t: Table, raw: string, quote: Quote): (r: Walked)
    // a known key only gains the path, and nothing is counted
    ensures raw in t ==>
      && r.count == 0
      && r.strings.Keys == t.Keys
      && (forall k :: k in t && k != raw ==> r.strings[k] == t[k])
      && r.strings[raw].text == t[raw].text
      && r.strings[raw].translation == t[raw].translation
      && r.strings[raw].dollar == t[raw].dollar
      && (forall p :: p in r.strings[raw].files <==> p in t[raw].files || p == path)
      && |t[raw].files| <= |r.strings[raw].files|
      && r.strings[raw].files[..|t[raw].files|] == t[raw].files
      && (NoDuplicates(t[raw].files) ==> NoDuplicates(r.strings[raw].files))
    // a new key is always counted, and stored unless the literal is empty
    ensures raw !in t ==> r.count == 1
    ensures raw !in t && raw == [] ==> r.strings == t
    ensures raw !in t && raw != [] ==>
      && r.strings.Keys == t.Keys + {raw}
      && (forall k :: k in t ==> r.strings[k] == t[k])
      && r.strings[raw].files == [path]
      && r.strings[raw].text == Unescape(raw, quote)
      && (r.strings[raw].dollar <==> '$' in r.strings[raw].text)
      && r.strings[raw].translation == ctx.translate(r.strings[raw].text, ctx.domain, ctx.locale)
  {
    if raw in t then
      var e := t[raw];
      Walked(0, t[raw := e.(files := AddPath(e.files, path))])
    else
      var text := Unescape(raw, quote);
      if |text| == 0 then
        Walked(1, t)
      else
        Walked(1, t[raw := Entry([path], text, ctx.translate(text, ctx.domain, ctx.locale), '$' in text)])
  }

  /** The match is a new key whose unescaped text is empty: the source
      `continue`s past it, and so skips the advance of its quote index. */
  predicate SkipsQuoteIndex(t: Table, raw: string, quote: Quote)
  {
    raw !in t && Unescape(raw, quote) == []
  }

  /** The non-empty raw literals among `ms[i..]`. */
  function NonEmptyRaws(ms: seq<Match>, i: nat): set<string>
    requires i <= |ms|
  {
    set j | i <= j < |ms| && ms[j].raw != [] :: ms[j].raw
  }

  lemma NonEmptyRawsStep(ms: seq<Match>, i: nat)
    requires i < |ms|
    ensures NonEmptyRaws(ms, i) == NonEmptyRaws(ms, i + 1) + (if ms[i].raw != [] then {ms[i].raw} else {})
  {
  }

  /** The loop over the matches of one file, from position `i`, with the
      quote index `idx` that the source keeps beside it. The quote of a
      new literal is read at `idx`, which lags behind `i` once an empty new
      literal has been skipped. */
  function InsertMatches(ctx: Context, path: string, ms: seq<Match>, i: nat, idx: nat, t: Table): (r: Walked)
    requires idx <= i <= |ms|
    ensures r.strings.Keys == t.Keys + NonEmptyRaws(ms, i)
    decreases |ms| - i
  {
    if i == |ms| then
      Walked(0, t)
    else
      var raw := ms[i].raw;
      var quote := ms[idx].quote;
      var w := Step(ctx, path, t, raw, quote);
      var next := if SkipsQuoteIndex(t, raw, quote) then idx else idx + 1;
      var rest := InsertMatches(ctx, path, ms, i + 1, next, w.strings);
      NonEmptyRawsStep(ms, i);
      Walked(w.count + rest.count, rest.strings)
  }

  /** The same loop with every literal unescaped with its own delimiter. */
  function InsertMatchesByPosition(ctx: Context, path: string, ms: seq<Match>, i: nat, t: Table): (r: Walked)
    requires i <= |ms|
    ensures r.strings.Keys == t.Keys + NonEmptyRaws(ms, i)
    decreases |ms| - i
  {
    if i == |ms| then
      Walked(0, t)
    else
      var w := Step(ctx, path, t, ms[i].raw, ms[i].quote);
      var rest := InsertMatchesByPosition(ctx, path, ms, i + 1, w.strings);
      NonEmptyRawsStep(ms, i);
      Walked(w.count + rest.count, rest.strings)
  }

  /** A file is examined when its extension is one the mode scans and its
      content could be read. */
  predicate IsScanned(exts: seq<string>, n: Node)
  {
    n.File? && n.ext in exts && n.readable
  }

  /** One file: an examined file adds exactly its non-empty literals as
      keys; any other file changes nothing. */
  function ScanFile(ctx: Context, f: Node, t: Table): (r: Walked)
    requires f.File?
    ensures r.strings.Keys == t.Keys + (if IsScanned(ctx.exts, f) then NonEmptyRaws(f.matches, 0) else {})
    ensures !IsScanned(ctx.exts, f) ==> r == Walked(0, t)
  {
    if IsScanned(ctx.exts, f) then
      InsertMatches(ctx, Paths.NormalizePath(f.path, ctx.root), f.matches, 0, 0, t)
    else
      Walked(0, t)
  }

  /** The walk of `n` taken as a directory. A node that cannot be iterated (an
      unreadable directory, or a file given where a directory is expected)
      contributes nothing. */
  function Walk(ctx: Context, n: Node, t: Table): (r: Walked)
    ensures t.Keys <= r.strings.Keys
    ensures !(n.Dir? && n.readable) ==> r == Walked(0, t)
    ensures n.Dir? && (forall c :: c in n.children ==> c.File? && !IsScanned(ctx.exts, c)) ==> r == Walked(0, t)
    decreases n
  {
    match n
    case File(_, _, _, _) => Walked(0, t)
    case Dir(readable, children) =>
      if !readable then Walked(0, t) else WalkEntries(ctx, children, t)
  }

  /** The directory entries, in iteration order: a subdirectory is walked, a
      file is scanned, and the table is threaded from one entry to the next. */
  function WalkEntries(ctx: Context, cs: seq<Node>, t: Table): (r: Walked)
    ensures t.Keys <= r.strings.Keys
    ensures (forall c :: c in cs ==> c.File? && !IsScanned(ctx.exts, c)) ==> r == Walked(0, t)
    decreases cs
  {
    if cs == [] then
      Walked(0, t)
    else
      var first := if cs[0].Dir? then Walk(ctx, cs[0], t) else ScanFile(ctx, cs[0], t);
      var rest := WalkEntries(ctx, cs[1..], first.strings);
      assert cs[0] in cs && forall c :: c in cs[1..] ==> c in cs;
      Walked(first.count + rest.count, rest.strings)
  }

  /** `walkDir` on the tree `dir` with the table `t` passed by reference. */
  function WalkDir(
    mode: WalkMode, locale: string, domain: string, root: string,
    translate: (string, string, string) -> string, dir: Node, t: Table): (r: ScanResult)
    ensures !IsValidMode(mode) <==> r == InvalidWalkMode(mode)
  {
    if !IsValidMode(mode) then
      InvalidWalkMode(mode)
    else
      var w := Walk(Context(AllowedExtensions(mode), locale, domain, root, translate), dir, t);
      Scanned(w.count, w.strings)
  }
}

=== FILE: scanner_examples.dfy ===
/**
 * Small inputs on which the walk's behaviour, including its quirks, can be
 * read off directly.
 */
module ScannerExamples {
  import opened PhpStrings
  import Paths
  import opened Scanner

  /** The key is the literal as written, before unescaping: the same text
      written with an escaped quote in one place and between the other
      delimiter in another gives two entries with equal texts, both counted. */
  lemma KeyTakenBeforeUnescaping(ctx: Context, path: string)
    ensures var r := InsertMatches(ctx, path, [Match('\'', "it\\'s"), Match('"', "it's")], 0, 0, map[]);
      && r.count == 2
      && r.strings.Keys == {"it\\'s", "it's"}
      && r.strings["it\\'s"].text == r.strings["it's"].text == "it's"
  {
    var ms := [Match('\'', "it\\'s"), Match('"', "it's")];
    assert Unescape("it\\'s", '\'') == "it's" by {
      assert Unescape("s", '\'') == "s";
      assert Unescape("'s", '\'') == "'s";
      assert Unescape("\\'s", '\'') == "'s";
      assert Unescape("t\\'s", '\'') == "t's";
    }
    assert Unescape("it's", '"') == "it's" by {
      assert Unescape("s", '"') == "s";
      assert Unescape("'s", '"') == "'s";
      assert Unescape("t's", '"') == "t's";
    }
    assert "it's" != "it\\'s";
    var w := Step(ctx, path, map[], "it\\'s", '\'');
    assert InsertMatches(ctx, path, ms, 0, 0, map[]) == Walked(1 + InsertMatches(ctx, path, ms, 1, 1, w.strings).count, InsertMatches(ctx, path, ms, 1, 1, w.strings).strings);
  }

  /** The count is taken before the emptiness check: an empty literal met
      twice is counted twice and never stored. */
  lemma RepeatedEmptyLiteralCountedEachTime(ctx: Context, path: string, t: Table)
    requires [] !in t
    ensures InsertMatches(ctx, path, [Match('\'', ""), Match('"', "")], 0, 0, t) == Walked(2, t)
  {
  }

  /** After an empty literal the quote index lags behind the match index: the
      next new literal, double-quoted, is unescaped as if it were
      single-quoted, and keeps its backslash. Read with its own delimiter it
      would not. */
  lemma EmptyLiteralShiftsQuote(ctx: Context, path: string)
    ensures var ms := [Match('\'', ""), Match('"', "a\\\"b")];
      && InsertMatches(ctx, path, ms, 0, 0, map[]).strings["a\\\"b"].text == "a\\\"b"
      && InsertMatchesByPosition(ctx, path, ms, 0, map[]).strings["a\\\"b"].text == "a\"b"
  {
    var ms := [Match('\'', ""), Match('"', "a\\\"b")];
    assert Unescape("a\\\"b", '\'') == "a\\\"b" by {
      assert Unescape("b", '\'') == "b";
      assert Unescape("\"b", '\'') == "\"b";
      assert Unescape("\\\"b", '\'') == "\\\"b";
    }
    assert Unescape("a\\\"b", '"') == "a\"b" by {
      assert Unescape("b", '"') == "b";
      assert Unescape("\\\"b", '"') == "\"b";
    }
    var w := Step(ctx, path, map[], "", '\'');
    assert w == Walked(1, map[]);
    assert InsertMatches(ctx, path, ms, 0, 0, map[]) == Walked(1 + InsertMatches(ctx, path, ms, 1, 0, map[]).count, InsertMatches(ctx, path, ms, 1, 0, map[]).strings);
    var v := Step(ctx, path, map[], "", '"');
    assert InsertMatchesByPosition(ctx, path, ms, 0, map[]) == Walked(1 + InsertMatchesByPosition(ctx, path, ms, 1, map[]).count, InsertMatchesByPosition(ctx, path, ms, 1, map[]).strings);
  }

  /** Two PHP files that both call `trans("Hello")` give one entry listing
      both recorded paths, and a count of one. */
  lemma SameTextInTwoFiles(
    locale: string, domain: string, root: string,
    translate: (string, string, string) -> string, p1: string, p2: string)
    requires Paths.NormalizePath(p1, root) != Paths.NormalizePath(p2, root)
    ensures var dir := Dir(true, [File(p1, "php", true, [Match('"', "Hello")]), File(p2, "php", true, [Match('"', "Hello")])]);
      WalkDir(WalkModePhp, locale, domain, root, translate, dir, map[]) ==
        Scanned(1, map["Hello" := Entry(
          [Paths.NormalizePath(p1, root), Paths.NormalizePath(p2, root)],
          "Hello", translate("Hello", domain, locale), false)])
  {
    var ctx := Context(["php"], locale, domain, root, translate);
    var n1, n2 := Paths.NormalizePath(p1, root), Paths.NormalizePath(p2, root);
    var f1 := File(p1, "php", true, [Match('"', "Hello")]);
    var f2 := File(p2, "php", true, [Match('"', "Hello")]);
    var e := Entry([n1], "Hello", translate("Hello", domain, locale), false);
    FirstHello(ctx, f1, e);
    SecondHello(ctx, f2, e, n1, n2);
    TwoFiles(ctx, f1, f2, map[]);
    PhpWalkOfDir(locale, domain, root, translate, [f1, f2], map[]);
  }

  lemma FirstHello(ctx: Context, f: Node, e: Entry)
    requires ctx.exts == ["php"]
    requires f.File? && f.ext == "php" && f.readable && f.matches == [Match('"', "Hello")]
    requires e == Entry([Paths.NormalizePath(f.path, ctx.root)], "Hello", ctx.translate("Hello", ctx.domain, ctx.locale), false)
    ensures ScanFile(ctx, f, map[]) == Walked(1, map["Hello" := e])
  {
    HelloFile(ctx, f, map[]);
  }

  lemma SecondHello(ctx: Context, f: Node, e: Entry, n1: string, n2: string)
    requires ctx.exts == ["php"]
    requires f.File? && f.ext == "php" && f.readable && f.matches == [Match('"', "Hello")]
    requires n2 == Paths.NormalizePath(f.path, ctx.root) && n1 != n2
    requires e.files == [n1]
    ensures ScanFile(ctx, f, map["Hello" := e]) == Walked(0, map["Hello" := e.(files := [n1, n2])])
  {
    HelloFile(ctx, f, map["Hello" := e]);
    assert n2 !in [n1];
    assert AddPath([n1], n2) == [n1, n2];
  }

  /** A PHP-mode walk of a readable directory walks its entries. */
  lemma PhpWalkOfDir(
    locale: string, domain: string, root: string,
    translate: (string, string, string) -> string, cs: seq<Node>, t: Table)
    ensures var w := WalkEntries(Context(["php"], locale, domain, root, translate), cs, t);
      WalkDir(WalkModePhp, locale, domain, root, translate, Dir(true, cs), t) == Scanned(w.count, w.strings)
  {
    assert AllowedExtensions(WalkModePhp) == ["php"];
  }

  /** One PHP file whose only call is `trans("Hello")`. */
  lemma HelloFile(ctx: Context, f: Node, t: Table)
    requires ctx.exts == ["php"]
    requires f.File? && f.ext == "php" && f.readable && f.matches == [Match('"', "Hello")]
    ensures var path := Paths.NormalizePath(f.path, ctx.root);
      var e := Entry([path], "Hello", ctx.translate("Hello", ctx.domain, ctx.locale), false);
      ScanFile(ctx, f, t) ==
        if "Hello" in t then Walked(0, t["Hello" := t["Hello"].(files := AddPath(t["Hello"].files, path))])
        else Walked(1, t["Hello" := e])
  {
    assert Unescape("Hello", '"') == "Hello" by {
      assert Unescape("o", '"') == "o";
      assert Unescape("lo", '"') == "lo";
      assert Unescape("llo", '"') == "llo";
      assert Unescape("ello", '"') == "ello";
    }
    assert '$' !in "Hello";
    SingleMatch(ctx, Paths.NormalizePath(f.path, ctx.root), Match('"', "Hello"), t);
  }

  /** A directory holding two files scans one, then the other. */
  lemma TwoFiles(ctx: Context, f1: Node, f2: Node, t: Table)
    requires f1.File? && f2.File?
    ensures var w1 := ScanFile(ctx, f1, t);
      var w2 := ScanFile(ctx, f2, w1.strings);
      WalkEntries(ctx, [f1, f2], t) == Walked(w1.count + w2.count, w2.strings)
  {
    var w1 := ScanFile(ctx, f1, t);
    assert WalkEntries(ctx, [f2], w1.strings) == ScanFile(ctx, f2, w1.strings) by {
      assert [f2][1..] == [];
    }
    assert [f1, f2][1..] == [f2];
  }

  /** A file with one match is one step. */
  lemma SingleMatch(ctx: Context, path: string, m: Match, t: Table)
    ensures InsertMatches(ctx, path, [m], 0, 0, t) == Step(ctx, path, t, m.raw, m.quote)
  {
    var w := Step(ctx, path, t, m.raw, m.quote);
    var next := if SkipsQuoteIndex(t, m.raw, m.quote) then 0 else 1;
    assert InsertMatches(ctx, path, [m], 1, next, w.strings) == Walked(0, w.strings);
  }

  /** A style sheet is examined in neither mode, whatever it contains. */
  lemma OtherExtensionIgnored(
    mode: WalkMode, locale: string, domain: string, root: string,
    translate: (string, string, string) -> string, path: string, ms: seq<Match>, t: Table)
    requires IsValidMode(mode)
    ensures WalkDir(mode, locale, domain, root, translate, Dir(true, [File(path, "css", true, ms)]), t) == Scanned(0, t)
  {
    var f := File(path, "css", true, ms);
    var ctx := Context(AllowedExtensions(mode), locale, domain, root, translate);
    assert "css" !in AllowedExtensions(mode);
    assert ScanFile(ctx, f, t) == Walked(0, t);
    assert WalkEntries(ctx, [f], t) == Walked(0, t) by {
      assert [f][1..] == [];
    }
  }
}

=== FILE: scanner_facts.dfy ===
/**
 * What the walk of `Scanner` guarantees: for one file, then for a whole tree
 * by way of the sequence of files the walk examines, in walk order.
 */
module ScannerFacts {
  import Paths
  import opened Scanner

  /** The number of empty literals among `ms[i..]`. */
  function EmptyLiterals(ms: seq<Match>, i: nat): nat
    requires i <= |ms|
    decreases |ms| - i
  {
    if i == |ms| then 0 else (if ms[i].raw == [] then 1 else 0) + EmptyLiterals(ms, i + 1)
  }

  lemma ExtendsTransitive(a: Table, b: Table, c: Table)
    requires Extends(a, b) && Extends(b, c)
    ensures Extends(a, c)
  {
    forall k | k in a
      ensures c[k].files[..|a[k].files|] == a[k].files
    {
      assert c[k].files[..|a[k].files|] == c[k].files[..|b[k].files|][..|a[k].files|];
    }
  }

  lemma StepExtends(ctx: Context, path: string, t: Table, raw: string, quote: Quote)
    ensures Extends(t, Step(ctx, path, t, raw, quote).strings)
  {
  }

  lemma StepWellFormed(ctx: Context, path: string, t: Table, raw: string, quote: Quote)
    requires Paths.IsRecordedPath(path)
    requires WellFormed(ctx, t)
    ensures WellFormed(ctx, Step(ctx, path, t, raw, quote).strings)
  {
    var u := Step(ctx, path, t, raw, quote).strings;
    forall k | k in u
      ensures WellFormedEntry(ctx, k, u[k])
    {
      if k != raw {
        assert u[k] == t[k];
      } else if raw in t {
        assert WellFormedEntry(ctx, k, t[k]);
        assert u[k] == t[k].(files := AddPath(t[k].files, path));
      } else {
        assert u[k].files == [path];
      }
    }
  }

  /** One file never loses an entry and never rewrites one: an entry keeps its
      text, translation and dollar flag, and its `files` list only grows at
      the end. */
  lemma {:induction false} InsertMatchesExtends(ctx: Context, path: string, ms: seq<Match>, i: nat, idx: nat, t: Table)
    requires idx <= i <= |ms|
    ensures Extends(t, InsertMatches(ctx, path, ms, i, idx, t).strings)
    decreases |ms| - i
  {
    if i < |ms| {
      var raw, quote := ms[i].raw, ms[idx].quote;
      var w := Step(ctx, path, t, raw, quote);
      var next := if SkipsQuoteIndex(t, raw, quote) then idx else idx + 1;
      StepExtends(ctx, path, t, raw, quote);
      InsertMatchesExtends(ctx, path, ms, i + 1, next, w.strings);
      ExtendsTransitive(t, w.strings, InsertMatches(ctx, path, ms, i + 1, next, w.strings).strings);
    }
  }

  /** Entries stored from a file satisfy the table invariant, given that the
      file's recorded path is a normalised one. */
  lemma {:induction false} InsertMatchesWellFormed(ctx: Context, path: string, ms: seq<Match>, i: nat, idx: nat, t: Table)
    requires idx <= i <= |ms|
    requires Paths.IsRecordedPath(path)
    requires WellFormed(ctx, t)
    ensures WellFormed(ctx, InsertMatches(ctx, path, ms, i, idx, t).strings)
    decreases |ms| - i
  {
    if i < |ms| {
      var raw, quote := ms[i].raw, ms[idx].quote;
      var w := Step(ctx, path, t, raw, quote);
      var next := if SkipsQuoteIndex(t, raw, quote) then idx else idx + 1;
      StepWellFormed(ctx, path, t, raw, quote);
      InsertMatchesWellFormed(ctx, path, ms, i + 1, next, w.strings);
    }
  }

  /** Every match whose key is absent counts once, stored or not; so for a
      table without the empty key, the count is the number of entries added
      plus the number of empty literals. */
  lemma {:induction false} InsertMatchesCount(ctx: Context, path: string, ms: seq<Match>, i: nat, idx: nat, t: Table)
    requires idx <= i <= |ms|
    requires [] !in t
    ensures var r := InsertMatches(ctx, path, ms, i, idx, t);
      r.count == |r.strings.Keys| - |t.Keys| + EmptyLiterals(ms, i)
    decreases |ms| - i
  {
    if i < |ms| {
      var raw, quote := ms[i].raw, ms[idx].quote;
      var w := Step(ctx, path, t, raw, quote);
      var next := if SkipsQuoteIndex(t, raw, quote) then idx else idx + 1;
      InsertMatchesCount(ctx, path, ms, i + 1, next, w.strings);
      if raw !in t && raw != [] {
        assert |w.strings.Keys| == |t.Keys| + 1;
      }
    }
  }

  /** Whatever the table, the count is at least the number of entries added. */
  lemma {:induction false} InsertMatchesCountsNewKeys(ctx: Context, path: string, ms: seq<Match>, i: nat, idx: nat, t: Table)
    requires idx <= i <= |ms|
    ensures var r := InsertMatches(ctx, path, ms, i, idx, t);
      r.count >= |r.strings.Keys| - |t.Keys|
    decreases |ms| - i
  {
    if i < |ms| {
      var raw, quote := ms[i].raw, ms[idx].quote;
      var w := Step(ctx, path, t, raw, quote);
      var next := if SkipsQuoteIndex(t, raw, quote) then idx else idx + 1;
      InsertMatchesCountsNewKeys(ctx, path, ms, i + 1, next, w.strings);
      if raw !in t && raw != [] {
        assert |w.strings.Keys| == |t.Keys| + 1;
      }
    }
  }

  /** The quote index after the match at `i`. */
  function NextIndex(t: Table, ms: seq<Match>, i: nat, idx: nat): nat
    requires idx <= i < |ms|
  {
    if SkipsQuoteIndex(t, ms[i].raw, ms[idx].quote) then idx else idx + 1
  }

  lemma InsertMatchesUnfold(ctx: Context, path: string, ms: seq<Match>, i: nat, idx: nat, t: Table)
    requires idx <= i < |ms|
    ensures var w := Step(ctx, path, t, ms[i].raw, ms[idx].quote);
      var rest := InsertMatches(ctx, path, ms, i + 1, NextIndex(t, ms, i, idx), w.strings);
      InsertMatches(ctx, path, ms, i, idx, t) == Walked(w.count + rest.count, rest.strings)
  {
  }

  /** One match lists the file's path for its own key, and for no other. */
  lemma StepFiles(ctx: Context, path: string, t: Table, raw: string, quote: Quote, k: string, p: string)
    requires [] !in t
    requires k in Step(ctx, path, t, raw, quote).strings
    ensures var u := Step(ctx, path, t, raw, quote).strings;
      p in u[k].files <==> (k in t && p in t[k].files) || (p == path && k == raw && raw != [])
  {
  }

  /** After a file, a path is listed for a key exactly when it was listed
      before, or it is this file's path and the key is one of its non-empty
      literals. */
  lemma {:induction false} InsertMatchesFiles(ctx: Context, path: string, ms: seq<Match>, i: nat, idx: nat, t: Table, k: string, p: string)
    requires idx <= i <= |ms|
    requires [] !in t
    requires k in InsertMatches(ctx, path, ms, i, idx, t).strings
    ensures var r := InsertMatches(ctx, path, ms, i, idx, t).strings;
      p in r[k].files <==> (k in t && p in t[k].files) || (p == path && k in NonEmptyRaws(ms, i))
    decreases |ms| - i
  {
    if i < |ms| {
      var u := Step(ctx, path, t, ms[i].raw, ms[idx].quote).strings;
      var next := NextIndex(t, ms, i, idx);
      assert k in InsertMatches(ctx, path, ms, i + 1, next, u).strings by {
        InsertMatchesUnfold(ctx, path, ms, i, idx, t);
      }
      InsertMatchesFiles(ctx, path, ms, i + 1, next, u, k, p);
      FilesStep(ctx, path, ms, i, idx, t, k, p, u, InsertMatches(ctx, path, ms, i + 1, next, u).strings);
    }
  }

  /** The inductive step of `InsertMatchesFiles`: the claim for the matches
      after `i`, on the table the match at `i` leaves, gives the claim from
      `i`. */
  lemma FilesStep(ctx: Context, path: string, ms: seq<Match>, i: nat, idx: nat, t: Table, k: string, p: string, u: Table, r: Table)
    requires idx <= i < |ms|
    requires [] !in t
    requires u == Step(ctx, path, t, ms[i].raw, ms[idx].quote).strings
    requires r == InsertMatches(ctx, path, ms, i + 1, NextIndex(t, ms, i, idx), u).strings
    requires k in r
    requires p in r[k].files <==> (k in u && p in u[k].files) || (p == path && k in NonEmptyRaws(ms, i + 1))
    ensures var r0 := InsertMatches(ctx, path, ms, i, idx, t).strings;
      k in r0 && (p in r0[k].files <==> (k in t && p in t[k].files) || (p == path && k in NonEmptyRaws(ms, i)))
  {
    var raw, quote := ms[i].raw, ms[idx].quote;
    assert r == InsertMatches(ctx, path, ms, i, idx, t).strings by {
      InsertMatchesUnfold(ctx, path, ms, i, idx, t);
    }
    var kRaw := k == raw && raw != [];
    NonEmptyRawsStep(ms, i);
    StepKeys(ctx, path, t, raw, quote);
    if k in u {
      StepFiles(ctx, path, t, raw, quote, k, p);
    }
    FilesCombine(p in r[k].files, k in t && p in t[k].files, k in t, k in u, k in u && p in u[k].files,
      p == path, kRaw, k in NonEmptyRaws(ms, i), k in NonEmptyRaws(ms, i + 1));
  }

  lemma StepKeys(ctx: Context, path: string, t: Table, raw: string, quote: Quote)
    ensures Step(ctx, path, t, raw, quote).strings.Keys == t.Keys + (if raw != [] then {raw} else {})
  {
  }

  /** The propositional step of `InsertMatchesFiles`. */
  lemma FilesCombine(inR: bool, inT: bool, keyT: bool, keyU: bool, inU: bool, isPath: bool, kRaw: bool, nerI: bool, nerNext: bool)
    requires inT ==> keyT
    requires inU ==> keyU
    requires nerI <==> nerNext || kRaw
    requires keyU <==> keyT || kRaw
    requires inR <==> inU || (isPath && nerNext)
    requires keyU ==> (inU <==> inT || (isPath && kRaw))
    ensures inR <==> inT || (isPath && nerI)
  {
  }

  /** Without empty literals the quote index never lags, and every literal is
      unescaped with its own delimiter. */
  lemma {:induction false} QuotesAlignWithoutEmptyLiterals(ctx: Context, path: string, ms: seq<Match>, i: nat, t: Table)
    requires i <= |ms|
    requires forall j :: i <= j < |ms| ==> ms[j].raw != []
    ensures InsertMatches(ctx, path, ms, i, i, t) == InsertMatchesByPosition(ctx, path, ms, i, t)
    decreases |ms| - i
  {
    if i < |ms| {
      var w := Step(ctx, path, t, ms[i].raw, ms[i].quote);
      assert !SkipsQuoteIndex(t, ms[i].raw, ms[i].quote);
      var a := InsertMatches(ctx, path, ms, i + 1, i + 1, w.strings);
      var b := InsertMatchesByPosition(ctx, path, ms, i + 1, w.strings);
      QuotesAlignWithoutEmptyLiterals(ctx, path, ms, i + 1, w.strings);
      assert InsertMatches(ctx, path, ms, i, i, t) == Walked(w.count + a.count, a.strings);
      assert InsertMatchesByPosition(ctx, path, ms, i, t) == Walked(w.count + b.count, b.strings);
    }
  }

  // ---------------------------------------------------------------------
  // The whole tree, through the files the walk examines.
  // ---------------------------------------------------------------------

  /** The files the walk of `n` examines, in walk order. */
  function ScannedFiles(exts: seq<string>, n: Node): (r: seq<Node>)
    ensures forall f :: f in r ==> IsScanned(exts, f)
    decreases n
  {
    match n
    case File(_, _, _, _) => []
    case Dir(readable, cs) => if readable then ScannedEntries(exts, cs) else []
  }

  function ScannedEntries(exts: seq<string>, cs: seq<Node>): (r: seq<Node>)
    ensures forall f :: f in r ==> IsScanned(exts, f)
    decreases cs
  {
    if cs == [] then []
    else
      var head := if cs[0].Dir? then ScannedFiles(exts, cs[0])
                  else if IsScanned(exts, cs[0]) then [cs[0]] else [];
      head + ScannedEntries(exts, cs[1..])
  }

  /** The matches of each file, inserted one file after the other. */
  function ScanAll(ctx: Context, fs: seq<Node>, t: Table): Walked
    requires forall f :: f in fs ==> f.File?
    decreases |fs|
  {
    if fs == [] then
      Walked(0, t)
    else
      var first := InsertMatches(ctx, Paths.NormalizePath(fs[0].path, ctx.root), fs[0].matches, 0, 0, t);
      var rest := ScanAll(ctx, fs[1..], first.strings);
      Walked(first.count + rest.count, rest.strings)
  }

  /** The non-empty literals of the files `fs`. */
  function RawsOfFiles(fs: seq<Node>): set<string>
    requires forall f :: f in fs ==> f.File?
    decreases |fs|
  {
    if fs == [] then {} else NonEmptyRaws(fs[0].matches, 0) + RawsOfFiles(fs[1..])
  }

  /** The number of empty literals in the files `fs`. */
  function EmptyLiteralsOfFiles(fs: seq<Node>): nat
    requires forall f :: f in fs ==> f.File?
    decreases |fs|
  {
    if fs == [] then 0 else EmptyLiterals(fs[0].matches, 0) + EmptyLiteralsOfFiles(fs[1..])
  }

  lemma {:induction false} ScanAllAppend(ctx: Context, fs: seq<Node>, gs: seq<Node>, t: Table)
    requires forall f :: f in fs ==> f.File?
    requires forall g :: g in gs ==> g.File?
    ensures var a := ScanAll(ctx, fs, t);
      var b := ScanAll(ctx, gs, a.strings);
      ScanAll(ctx, fs + gs, t) == Walked(a.count + b.count, b.strings)
    decreases |fs|
  {
    if fs == [] {
      assert fs + gs == gs;
    } else {
      var first := InsertMatches(ctx, Paths.NormalizePath(fs[0].path, ctx.root), fs[0].matches, 0, 0, t);
      assert (fs + gs)[0] == fs[0];
      assert (fs + gs)[1..] == fs[1..] + gs;
      ScanAllAppend(ctx, fs[1..], gs, first.strings);
    }
  }

  /** Walking a tree is scanning, in order, the files it examines. */
  lemma {:induction false} WalkIsScanOfFiles(ctx: Context, n: Node, t: Table)
    ensures Walk(ctx, n, t) == ScanAll(ctx, ScannedFiles(ctx.exts, n), t)
    decreases n
  {
    match n
    case File(_, _, _, _) =>
    case Dir(readable, cs) =>
      if readable {
        WalkEntriesIsScanOfFiles(ctx, cs, t);
      }
  }

  lemma {:induction false} WalkEntriesIsScanOfFiles(ctx: Context, cs: seq<Node>, t: Table)
    ensures WalkEntries(ctx, cs, t) == ScanAll(ctx, ScannedEntries(ctx.exts, cs), t)
    decreases cs
  {
    if cs != [] {
      var first := EntryWalk(ctx, cs[0], t);
      var head := EntryFiles(ctx.exts, cs[0]);
      if cs[0].Dir? {
        WalkIsScanOfFiles(ctx, cs[0], t);
      }
      EntryIsScanAll(ctx, cs[0], t);
      WalkEntriesIsScanOfFiles(ctx, cs[1..], first.strings);
      ScanAllAppend(ctx, head, ScannedEntries(ctx.exts, cs[1..]), t);
      EntriesUnfold(ctx, cs, t);
    }
  }

  /** What the walk does with one directory entry. */
  function EntryWalk(ctx: Context, c: Node, t: Table): Walked
  {
    if c.Dir? then Walk(ctx, c, t) else ScanFile(ctx, c, t)
  }

  /** The files the walk examines for one directory entry. */
  function EntryFiles(exts: seq<string>, c: Node): seq<Node>
  {
    if c.Dir? then ScannedFiles(exts, c) else if IsScanned(exts, c) then [c] else []
  }

  lemma EntriesUnfold(ctx: Context, cs: seq<Node>, t: Table)
    requires cs != []
    ensures ScannedEntries(ctx.exts, cs) == EntryFiles(ctx.exts, cs[0]) + ScannedEntries(ctx.exts, cs[1..])
    ensures var first := EntryWalk(ctx, cs[0], t);
      var rest := WalkEntries(ctx, cs[1..], first.strings);
      WalkEntries(ctx, cs, t) == Walked(first.count + rest.count, rest.strings)
  {
  }

  lemma EntryIsScanAll(ctx: Context, c: Node, t: Table)
    requires c.Dir? ==> Walk(ctx, c, t) == ScanAll(ctx, ScannedFiles(ctx.exts, c), t)
    ensures forall f :: f in EntryFiles(ctx.exts, c) ==> f.File?
    ensures EntryWalk(ctx, c, t) == ScanAll(ctx, EntryFiles(ctx.exts, c), t)
  {
    if !c.Dir? {
      ScanFileIsScanAll(ctx, c, t);
    }
  }

  lemma ScanFileIsScanAll(ctx: Context, f: Node, t: Table)
    requires f.File?
    ensures ScanFile(ctx, f, t) == ScanAll(ctx, if IsScanned(ctx.exts, f) then [f] else [], t)
  {
    if IsScanned(ctx.exts, f) {
      ScanAllSingle(ctx, f, t);
    }
  }

  lemma ScanAllSingle(ctx: Context, f: Node, t: Table)
    requires f.File?
    ensures ScanAll(ctx, [f], t) == InsertMatches(ctx, Paths.NormalizePath(f.path, ctx.root), f.matches, 0, 0, t)
  {
    var w := InsertMatches(ctx, Paths.NormalizePath(f.path, ctx.root), f.matches, 0, 0, t);
    assert [f][1..] == [];
    assert ScanAll(ctx, [f], t) == Walked(w.count + 0, w.strings);
  }

  /** Scanning files adds exactly their non-empty literals as keys, keeps
      every entry it found (text, translation and flag unchanged, `files`
      only extended) and, from a well-formed table, yields a well-formed
      table. */
  lemma ScanAllKeeps(ctx: Context, fs: seq<Node>, t: Table)
    requires forall f :: f in fs ==> f.File?
    ensures ScanAll(ctx, fs, t).strings.Keys == t.Keys + RawsOfFiles(fs)
    ensures Extends(t, ScanAll(ctx, fs, t).strings)
    ensures WellFormed(ctx, t) ==> WellFormed(ctx, ScanAll(ctx, fs, t).strings)
  {
    ScanAllKeys(ctx, fs, t);
    ScanAllExtends(ctx, fs, t);
    if WellFormed(ctx, t) {
      ScanAllWellFormed(ctx, fs, t);
    }
  }

  lemma {:induction false} ScanAllKeys(ctx: Context, fs: seq<Node>, t: Table)
    requires forall f :: f in fs ==> f.File?
    ensures ScanAll(ctx, fs, t).strings.Keys == t.Keys + RawsOfFiles(fs)
    decreases |fs|
  {
    if fs != [] {
      var first := InsertMatches(ctx, Paths.NormalizePath(fs[0].path, ctx.root), fs[0].matches, 0, 0, t);
      assert first.strings.Keys == t.Keys + NonEmptyRaws(fs[0].matches, 0);
      assert ScanAll(ctx, fs, t).strings == ScanAll(ctx, fs[1..], first.strings).strings;
      ScanAllKeys(ctx, fs[1..], first.strings);
      assert RawsOfFiles(fs) == NonEmptyRaws(fs[0].matches, 0) + RawsOfFiles(fs[1..]);
    }
  }

  lemma {:induction false} ScanAllExtends(ctx: Context, fs: seq<Node>, t: Table)
    requires forall f :: f in fs ==> f.File?
    ensures Extends(t, ScanAll(ctx, fs, t).strings)
    decreases |fs|
  {
    if fs != [] {
      var path := Paths.NormalizePath(fs[0].path, ctx.root);
      var first := InsertMatches(ctx, path, fs[0].matches, 0, 0, t);
      InsertMatchesExtends(ctx, path, fs[0].matches, 0, 0, t);
      ScanAllExtends(ctx, fs[1..], first.strings);
      ExtendsTransitive(t, first.strings, ScanAll(ctx, fs[1..], first.strings).strings);
    }
  }

  lemma {:induction false} ScanAllWellFormed(ctx: Context, fs: seq<Node>, t: Table)
    requires forall f :: f in fs ==> f.File?
    requires WellFormed(ctx, t)
    ensures WellFormed(ctx, ScanAll(ctx, fs, t).strings)
    decreases |fs|
  {
    if fs != [] {
      var path := Paths.NormalizePath(fs[0].path, ctx.root);
      var first := InsertMatches(ctx, path, fs[0].matches, 0, 0, t);
      InsertMatchesWellFormed(ctx, path, fs[0].matches, 0, 0, t);
      ScanAllWellFormed(ctx, fs[1..], first.strings);
    }
  }

  /** The count of a scan of files: at least the number of entries added, and
      exactly that plus the empty literals met when the table has no empty
      key. */
  lemma {:induction false} ScanAllCount(ctx: Context, fs: seq<Node>, t: Table)
    requires forall f :: f in fs ==> f.File?
    ensures var r := ScanAll(ctx, fs, t);
      r.count >= |r.strings.Keys| - |t.Keys|
    ensures var r := ScanAll(ctx, fs, t);
      [] !in t ==> r.count == |r.strings.Keys| - |t.Keys| + EmptyLiteralsOfFiles(fs)
    decreases |fs|
  {
    if fs != [] {
      var path := Paths.NormalizePath(fs[0].path, ctx.root);
      var first := InsertMatches(ctx, path, fs[0].matches, 0, 0, t);
      InsertMatchesCountsNewKeys(ctx, path, fs[0].matches, 0, 0, t);
      if [] !in t {
        InsertMatchesCount(ctx, path, fs[0].matches, 0, 0, t);
      }
      ScanAllCount(ctx, fs[1..], first.strings);
    }
  }

  /** `walkDir` as a whole, in a recognised mode: the keys added are exactly
      the non-empty literals of the files whose extension the mode scans; no
      entry is removed or rewritten; the table invariant is kept; the count
      is at least the number of entries added, and exactly that plus the
      number of empty literals met when the table has no empty key. */
  lemma WalkDirSummary(
    mode: WalkMode, locale: string, domain: string, root: string,
    translate: (string, string, string) -> string, dir: Node, t: Table)
    requires IsValidMode(mode)
    ensures var ctx := Context(AllowedExtensions(mode), locale, domain, root, translate);
      var fs := ScannedFiles(AllowedExtensions(mode), dir);
      var r := WalkDir(mode, locale, domain, root, translate, dir, t);
      && r.Scanned?
      && (forall f :: f in fs ==> f.ext in AllowedExtensions(mode))
      && r.strings.Keys == t.Keys + RawsOfFiles(fs)
      && Extends(t, r.strings)
      && (WellFormed(ctx, t) ==> WellFormed(ctx, r.strings))
      && r.count >= |r.strings.Keys| - |t.Keys|
      && ([] !in t ==> r.count == |r.strings.Keys| - |t.Keys| + EmptyLiteralsOfFiles(fs))
  {
    var ctx := Context(AllowedExtensions(mode), locale, domain, root, translate);
    var fs := ScannedFiles(AllowedExtensions(mode), dir);
    WalkIsScanOfFiles(ctx, dir, t);
    ScanAllKeeps(ctx, fs, t);
    ScanAllCount(ctx, fs, t);
  }

  /** A directory that cannot be opened contributes nothing and raises no
      error. */
  lemma UnreadableDirectoryIsSkipped(
    mode: WalkMode, locale: string, domain: string, root: string,
    translate: (string, string, string) -> string, children: seq<Node>, t: Table)
    requires IsValidMode(mode)
    ensures WalkDir(mode, locale, domain, root, translate, Dir(false, children), t) == Scanned(0, t)
  {
  }

  lemma {:induction false} ScannedEntriesAppend(exts: seq<string>, cs: seq<Node>, ds: seq<Node>)
    ensures ScannedEntries(exts, cs + ds) == ScannedEntries(exts, cs) + ScannedEntries(exts, ds)
    decreases |cs|
  {
    if cs == [] {
      assert cs + ds == ds;
    } else {
      assert (cs + ds)[0] == cs[0];
      assert (cs + ds)[1..] == cs[1..] + ds;
      ScannedEntriesAppend(exts, cs[1..], ds);
    }
  }

  lemma SkipUnscannedEntry(exts: seq<string>, pre: seq<Node>, f: Node, post: seq<Node>)
    requires f.File? && !IsScanned(exts, f)
    ensures ScannedEntries(exts, pre + [f] + post) == ScannedEntries(exts, pre + post)
  {
    assert ScannedEntries(exts, [f]) == [] by {
      assert [f][1..] == [];
    }
    ScannedEntriesAppend(exts, pre + [f], post);
    ScannedEntriesAppend(exts, pre, [f]);
    ScannedEntriesAppend(exts, pre, post);
  }

  /** Two lists of directory entries that examine the same files walk alike. */
  lemma SameScannedFilesSameWalk(ctx: Context, cs: seq<Node>, ds: seq<Node>, t: Table)
    requires ScannedEntries(ctx.exts, cs) == ScannedEntries(ctx.exts, ds)
    ensures WalkEntries(ctx, cs, t) == WalkEntries(ctx, ds, t)
  {
    WalkEntriesIsScanOfFiles(ctx, cs, t);
    WalkEntriesIsScanOfFiles(ctx, ds, t);
  }

  /** A file the mode does not scan (another extension, or unreadable) can be
      placed anywhere in a directory without changing the count or the
      table. */
  lemma UnscannedFileChangesNothing(ctx: Context, cs: seq<Node>, i: nat, f: Node, t: Table)
    requires i <= |cs|
    requires f.File? && !IsScanned(ctx.exts, f)
    ensures WalkEntries(ctx, cs[..i] + [f] + cs[i..], t) == WalkEntries(ctx, cs, t)
  {
    var exts := ctx.exts;
    var pre, post := cs[..i], cs[i..];
    var with := pre + [f] + post;
    assert pre + post == cs;
    SkipUnscannedEntry(exts, pre, f, post);
    SameScannedFilesSameWalk(ctx, with, cs, t);
  }
}

=== FILE: writer.dfy ===
/**
 * `Translation::writeTranslationFile`: the translation file written from the
 * translatable strings (key to text, in the array's order) and the
 * translations the user entered (key to translation). The file is modelled
 * by its content; whether `fopen` succeeds is an input.
 */
module Writer {
  import opened PhpStrings

  /** One element of the translatable-strings array: a key and its text. */
  datatype TextEntry<K> = TextEntry(key: K, text: string)

  /** `a` sorts no later than `b` under a byte-wise comparison, as `strcmp`
      orders two strings: the first differing character decides, and a
      proper prefix comes first. */
  function TextLe(a: string, b: string): (r: bool)
    ensures a == [] ==> r
    ensures r && a != [] ==> b != [] && a[0] <= b[0]
    ensures a != [] && b != [] && a[0] != b[0] ==> (r <==> a[0] < b[0])
    decreases |a|
  {
    a == [] || (b != [] && (a[0] < b[0] || (a[0] == b[0] && TextLe(a[1..], b[1..]))))
  }

  /** The order `strcmp` defines, stated directly: `a` is a prefix of `b`, or
      at the first position where they differ `a` has the smaller
      character. */
  predicate StrcmpLe(a: string, b: string)
  {
    (|a| <= |b| && a == b[..|a|])
    || exists i :: 0 <= i < |a| && i < |b| && a[..i] == b[..i] && a[i] < b[i]
  }

  /** The recursive comparison is the `strcmp` order. */
  lemma {:induction false} TextLeIsStrcmpLe(a: string, b: string)
    ensures TextLe(a, b) <==> StrcmpLe(a, b)
    decreases |a|
  {
    if a == [] {
      assert a == b[..0];
    } else if b == [] {
    } else if a[0] < b[0] {
      assert a[..0] == b[..0];
    } else if a[0] > b[0] {
    } else {
      TextLeIsStrcmpLe(a[1..], b[1..]);
      StrcmpLeTail(a, b);
    }
  }

  lemma StrcmpLeTail(a: string, b: string)
    requires a != [] && b != [] && a[0] == b[0]
    ensures StrcmpLe(a, b) <==> StrcmpLe(a[1..], b[1..])
  {
    if StrcmpLe(a, b) {
      StrcmpLeDropHead(a, b);
    }
    if StrcmpLe(a[1..], b[1..]) {
      StrcmpLeAddHead(a, b);
    }
  }

  lemma StrcmpLeDropHead(a: string, b: string)
    requires a != [] && b != [] && a[0] == b[0]
    requires StrcmpLe(a, b)
    ensures StrcmpLe(a[1..], b[1..])
  {
    if |a| <= |b| && a == b[..|a|] {
      assert a[1..] == b[1..][..|a[1..]|];
    } else {
      var i :| 0 <= i < |a| && i < |b| && a[..i] == b[..i] && a[i] < b[i];
      assert i != 0;
      assert a[1..][..i - 1] == a[..i][1..];
      assert b[1..][..i - 1] == b[..i][1..];
      assert a[1..][i - 1] == a[i] && b[1..][i - 1] == b[i];
    }
  }

  lemma StrcmpLeAddHead(a: string, b: string)
    requires a != [] && b != [] && a[0] == b[0]
    requires StrcmpLe(a[1..], b[1..])
    ensures StrcmpLe(a, b)
  {
    if |a[1..]| <= |b[1..]| && a[1..] == b[1..][..|a[1..]|] {
      assert a == [a[0]] + a[1..];
      assert b[..|a|] == [b[0]] + b[1..][..|a[1..]|];
    } else {
      var j :| 0 <= j < |a[1..]| && j < |b[1..]| && a[1..][..j] == b[1..][..j] && a[1..][j] < b[1..][j];
      assert a[..j + 1] == [a[0]] + a[1..][..j];
      assert b[..j + 1] == [b[0]] + b[1..][..j];
      assert a[j + 1] == a[1..][j] && b[j + 1] == b[1..][j];
    }
  }

  lemma {:induction false} TextLeTotal(a: string, b: string)
    ensures TextLe(a, b) || TextLe(b, a)
    decreases |a|
  {
    if a != [] && b != [] && a[0] == b[0] {
      TextLeTotal(a[1..], b[1..]);
    }
  }

  lemma {:induction false} TextLeTransitive(a: string, b: string, c: string)
    requires TextLe(a, b) && TextLe(b, c)
    ensures TextLe(a, c)
    decreases |a|
  {
    if a != [] && b != [] && c != [] && a[0] == b[0] && b[0] == c[0] {
      TextLeTransitive(a[1..], b[1..], c[1..]);
    }
  }

  predicate SortedByText<K>(s: seq<TextEntry<K>>)
  {
    forall i, j :: 0 <= i < j < |s| ==> TextLe(s[i].text, s[j].text)
  }

  /** Places `e` into the sorted `s`, before the first text it does not sort
      after. */
  function InsertByText<K(==)>(e: TextEntry<K>, s: seq<TextEntry<K>>): (r: seq<TextEntry<K>>)
    requires SortedByText(s)
    ensures SortedByText(r)
    ensures multiset(r) == multiset(s) + multiset{e}
    decreases |s|
  {
    if s == [] then
      [e]
    else if TextLe(e.text, s[0].text) then
      FirstIsLeast(e, s);
      [e] + s
    else
      var rest := InsertByText(e, s[1..]);
      TextLeTotal(e.text, s[0].text);
      assert s == [s[0]] + s[1..];
      HeadBelowRest(s[0], s[1..], e, rest);
      [s[0]] + rest
  }

  lemma FirstIsLeast<K>(e: TextEntry<K>, s: seq<TextEntry<K>>)
    requires s != [] && SortedByText(s) && TextLe(e.text, s[0].text)
    ensures SortedByText([e] + s)
  {
    forall j | 0 < j < |s| + 1
      ensures TextLe(e.text, ([e] + s)[j].text)
    {
      if j > 1 {
        TextLeTransitive(e.text, s[0].text, s[j - 1].text);
      }
    }
  }

  lemma HeadBelowRest<K>(h: TextEntry<K>, s: seq<TextEntry<K>>, e: TextEntry<K>, rest: seq<TextEntry<K>>)
    requires SortedByText([h] + s) && SortedByText(rest)
    requires TextLe(h.text, e.text)
    requires multiset(rest) == multiset(s) + multiset{e}
    ensures SortedByText([h] + rest)
  {
    forall j | 0 <= j < |rest|
      ensures TextLe(h.text, rest[j].text)
    {
      assert rest[j] in multiset(rest);
      if rest[j] != e {
        assert multiset(rest)[rest[j]] == multiset(s)[rest[j]] + multiset{e}[rest[j]];
        assert multiset(s)[rest[j]] > 0;
        assert rest[j] in multiset(s);
        var k :| 0 <= k < |s| && s[k] == rest[j];
        assert ([h] + s)[k + 1] == s[k];
        assert TextLe(([h] + s)[0].text, ([h] + s)[k + 1].text);
      }
    }
  }

  /** `asort`: the entries ordered by text. */
  function SortByText<K(==)>(s: seq<TextEntry<K>>): (r: seq<TextEntry<K>>)
    ensures SortedByText(r)
    ensures multiset(r) == multiset(s)
    decreases |s|
  {
    if s == [] then []
    else
      assert s == [s[0]] + s[1..];
      InsertByText(s[0], SortByText(s[1..]))
  }

  /** `r` is `s` with some elements left out, the rest in their order. */
  predicate IsSubsequence<T(==)>(r: seq<T>, s: seq<T>)
    decreases |s|
  {
    r == [] || (s != [] && ((r[0] == s[0] && IsSubsequence(r[1..], s[1..])) || IsSubsequence(r, s[1..])))
  }

  /** `empty($translations[$key])` on a string: the key is missing, or its
      translation is `''` or `'0'`. */
  function Untranslated<K>(translations: map<K, string>, key: K): (r: bool)
    ensures key !in translations ==> r
    ensures key in translations && translations[key] == [] ==> r
    ensures key in translations && |translations[key]| >= 2 ==> !r
    ensures key in translations && |translations[key]| == 1 ==> (r <==> translations[key][0] == '0')
  {
    key !in translations || translations[key] == "" || translations[key] == "0"
  }

  /** The entries whose translation is not empty, in their order. */
  function KeepTranslated<K(==,!new)>(s: seq<TextEntry<K>>, translations: map<K, string>): (r: seq<TextEntry<K>>)
    ensures forall e :: multiset(r)[e] == if Untranslated(translations, e.key) then 0 else multiset(s)[e]
    ensures forall e :: e in r ==> e in s
    ensures SortedByText(s) ==> SortedByText(r)
    ensures IsSubsequence(r, s)
    decreases |s|
  {
    if s == [] then []
    else
      var rest := KeepTranslated(s[1..], translations);
      assert s == [s[0]] + s[1..];
      if Untranslated(translations, s[0].key) then
        rest
      else
        HeadBelowKept(s, rest);
        [s[0]] + rest
  }

  lemma HeadBelowKept<K>(s: seq<TextEntry<K>>, rest: seq<TextEntry<K>>)
    requires s != []
    requires forall e :: e in rest ==> e in s[1..]
    requires SortedByText(s) ==> SortedByText(rest)
    ensures SortedByText(s) ==> SortedByText([s[0]] + rest)
  {
    if SortedByText(s) {
      forall j | 0 <= j < |rest|
        ensures TextLe(s[0].text, rest[j].text)
      {
        assert rest[j] in s[1..];
        var k :| 0 <= k < |s[1..]| && s[1..][k] == rest[j];
        assert s[k + 1] == rest[j];
      }
    }
  }

  /** The entries the writer emits, in the order it emits them: those with a
      non-empty translation, each once per occurrence in the array, in
      nondecreasing order of text. */
  function EmittedEntries<K(==,!new)>(texts: seq<TextEntry<K>>, translations: map<K, string>): (r: seq<TextEntry<K>>)
    ensures SortedByText(r)
    ensures forall e :: multiset(r)[e] == if Untranslated(translations, e.key) then 0 else multiset(texts)[e]
    ensures forall e :: e in r ==> !Untranslated(translations, e.key)
  {
    KeepTranslated(SortByText(texts), translations)
  }

  const Header: string := "<?php\n\nreturn array(\n"
  const Footer: string := ");\n"

  /** `sprintf("    '%s' => '%s',\n", ...)` on the escaped text and
      translation. */
  function EntryLine(text: string, translation: string): (r: string)
    ensures |r| == |Escape(text)| + |Escape(translation)| + 14
    ensures |r| >= |text| + |translation| + 14
    ensures r[..5] == "    '" && r[|r| - 3..] == "',\n"
    ensures forall c :: c in text || c in translation ==> c in r
  {
    "    '" + Escape(text) + "' => '" + Escape(translation) + "',\n"
  }

  function Body<K>(es: seq<TextEntry<K>>, translations: map<K, string>): (r: string)
    requires forall e :: e in es ==> e.key in translations
    ensures r == [] <==> es == []
    ensures |r| >= 14 * |es|
    decreases |es|
  {
    if es == [] then "" else EntryLine(es[0].text, translations[es[0].key]) + Body(es[1..], translations)
  }

  datatype WriteOutcome = Written(content: string) | CannotOpen(path: string)

  /** The content written to `path`, or the failure to open it for writing. */
  function WriteTranslationFile<K(==,!new)>(
    path: string, canOpen: bool, texts: seq<TextEntry<K>>, translations: map<K, string>): (r: WriteOutcome)
    ensures !canOpen <==> r == CannotOpen(path)
    ensures canOpen ==> r.Written? && |r.content| >= |Header| + |Footer|
    ensures canOpen ==> r.Written? && r.content[..|Header|] == Header
    ensures canOpen ==> r.Written? && r.content[|r.content| - |Footer|..] == Footer
  {
    if canOpen then
      var body := Body(EmittedEntries(texts, translations), translations);
      Enveloped(body);
      Written(Header + body + Footer)
    else
      CannotOpen(path)
  }

  lemma Enveloped(body: string)
    ensures var c := Header + body + Footer;
      |c| >= |Header| + |Footer| && c[..|Header|] == Header && c[|c| - |Footer|..] == Footer
  {
    var c := Header + body + Footer;
    assert c[..|Header|] == Header;
    assert c[|c| - |Footer|..] == Footer;
  }

  function Concat(lines: seq<string>): string
    decreases |lines|
  {
    if lines == [] then "" else lines[0] + Concat(lines[1..])
  }

  /** The written file, line by line: the envelope, and between its two
      halves one line per emitted entry, in emitted order, carrying the
      entry's text and translation escaped. */
  lemma WrittenLines<K(!new)>(
    path: string, texts: seq<TextEntry<K>>, translations: map<K, string>)
    ensures var es := EmittedEntries(texts, translations);
      forall e :: e in es ==> e.key in translations
    ensures var es := EmittedEntries(texts, translations);
      var lines := seq(|es|, i requires 0 <= i < |es| => EntryLine(es[i].text, translations[es[i].key]));
      WriteTranslationFile(path, true, texts, translations) == Written(Header + Concat(lines) + Footer)
  {
    var es := EmittedEntries(texts, translations);
    BodyIsConcat(es, translations);
  }

  lemma {:induction false} BodyIsConcat<K>(es: seq<TextEntry<K>>, translations: map<K, string>)
    requires forall e :: e in es ==> e.key in translations
    ensures Body(es, translations) ==
      Concat(seq(|es|, i requires 0 <= i < |es| => EntryLine(es[i].text, translations[es[i].key])))
    decreases |es|
  {
    if es != [] {
      BodyIsConcat(es[1..], translations);
      var lines := seq(|es|, i requires 0 <= i < |es| => EntryLine(es[i].text, translations[es[i].key]));
      assert lines[1..] == seq(|es[1..]|, i requires 0 <= i < |es[1..]| => EntryLine(es[1..][i].text, translations[es[1..][i].key]));
    }
  }
}

=== FILE: writer_examples.dfy ===
/**
 * Small inputs on which the written translation file can be read off
 * directly.
 */
module WriterExamples {
  import opened PhpStrings
  import opened Writer

  /** The content written when the emitted entries are known. */
  lemma WrittenFrom<K(!new)>(texts: seq<TextEntry<K>>, translations: map<K, string>, es: seq<TextEntry<K>>, body: string)
    requires EmittedEntries(texts, translations) == es
    requires forall e :: e in es ==> e.key in translations
    requires Body(es, translations) == body
    ensures WriteTranslationFile("fr_FR.php", true, texts, translations) == Written(Header + body + Footer)
  {
  }

  /** A key whose translation is `''` is left out of the file. */
  lemma EmptyTranslationOmitted()
    ensures WriteTranslationFile("fr_FR.php", true,
              [TextEntry("h1", "A"), TextEntry("h2", "B")], map["h1" := "", "h2" := "bee"])
            == Written(Header + "    'B' => 'bee',\n" + Footer)
  {
    var texts := [TextEntry("h1", "A"), TextEntry("h2", "B")];
    var trs := map["h1" := "", "h2" := "bee"];
    var kept := [TextEntry("h2", "B")];
    EmptyTranslationEntries(texts, trs);
    assert Body(kept, trs) == "    'B' => 'bee',\n" by {
      assert Body(kept, trs) == EntryLine("B", "bee") + "";
      BeeLine();
    }
    WrittenFrom(texts, trs, kept, "    'B' => 'bee',\n");
  }

  lemma EmptyTranslationEntries(texts: seq<TextEntry<string>>, trs: map<string, string>)
    requires texts == [TextEntry("h1", "A"), TextEntry("h2", "B")]
    requires trs == map["h1" := "", "h2" := "bee"]
    ensures EmittedEntries(texts, trs) == [TextEntry("h2", "B")]
  {
    AlreadySorted(texts);
    DropsEmpty(texts, trs);
  }

  lemma AlreadySorted(texts: seq<TextEntry<string>>)
    requires texts == [TextEntry("h1", "A"), TextEntry("h2", "B")]
    ensures SortByText(texts) == texts
  {
    assert texts[1..] == [TextEntry("h2", "B")];
    assert SortByText([TextEntry("h2", "B")]) == [TextEntry("h2", "B")];
    assert TextLe("A", "B");
  }

  lemma DropsEmpty(texts: seq<TextEntry<string>>, trs: map<string, string>)
    requires texts == [TextEntry("h1", "A"), TextEntry("h2", "B")]
    requires trs == map["h1" := "", "h2" := "bee"]
    ensures KeepTranslated(texts, trs) == [TextEntry("h2", "B")]
  {
    assert texts[1..] == [TextEntry("h2", "B")];
    assert KeepTranslated([TextEntry("h2", "B")], trs) == [TextEntry("h2", "B")];
  }

  /** `'0'` is empty to PHP as well: a key translated as `'0'` is left out. */
  lemma ZeroTranslationOmitted()
    ensures WriteTranslationFile("fr_FR.php", true, [TextEntry("h1", "A")], map["h1" := "0"])
            == Written(Header + Footer)
  {
    assert SortByText([TextEntry("h1", "A")]) == [TextEntry("h1", "A")];
    assert KeepTranslated([TextEntry("h1", "A")], map["h1" := "0"]) == [];
  }

  /** Lines follow the order of the texts, not of the keys, and quotes are
      escaped in both the text and the translation. */
  lemma LinesOrderedAndEscaped()
    ensures WriteTranslationFile("fr_FR.php", true,
              [TextEntry(1, "it's"), TextEntry(2, "Cart")], map[1 := "c'est", 2 := "Panier"])
            == Written(Header + ("    'Cart' => 'Panier',\n" + "    'it\\'s' => 'c\\'est',\n") + Footer)
  {
    var texts := [TextEntry(1, "it's"), TextEntry(2, "Cart")];
    var sorted := [TextEntry(2, "Cart"), TextEntry(1, "it's")];
    var trs := map[1 := "c'est", 2 := "Panier"];
    OrderedEntries(texts, trs);
    OrderedBody(sorted, trs);
    WrittenFrom(texts, trs, sorted, "    'Cart' => 'Panier',\n" + "    'it\\'s' => 'c\\'est',\n");
  }

  lemma OrderedEntries(texts: seq<TextEntry<int>>, trs: map<int, string>)
    requires texts == [TextEntry(1, "it's"), TextEntry(2, "Cart")]
    requires trs == map[1 := "c'est", 2 := "Panier"]
    ensures EmittedEntries(texts, trs) == [TextEntry(2, "Cart"), TextEntry(1, "it's")]
  {
    var sorted := [TextEntry(2, "Cart"), TextEntry(1, "it's")];
    OrderedSort(texts);
    OrderedKeep(sorted, trs);
  }

  lemma OrderedSort(texts: seq<TextEntry<int>>)
    requires texts == [TextEntry(1, "it's"), TextEntry(2, "Cart")]
    ensures SortByText(texts) == [TextEntry(2, "Cart"), TextEntry(1, "it's")]
  {
    assert texts[1..] == [TextEntry(2, "Cart")];
    assert SortByText([TextEntry(2, "Cart")]) == [TextEntry(2, "Cart")];
    assert !TextLe("it's", "Cart");
  }

  lemma OrderedKeep(sorted: seq<TextEntry<int>>, trs: map<int, string>)
    requires sorted == [TextEntry(2, "Cart"), TextEntry(1, "it's")]
    requires trs == map[1 := "c'est", 2 := "Panier"]
    ensures KeepTranslated(sorted, trs) == sorted
  {
    assert sorted[1..] == [TextEntry(1, "it's")];
    assert KeepTranslated([TextEntry(1, "it's")], trs) == [TextEntry(1, "it's")];
  }

  lemma OrderedBody(sorted: seq<TextEntry<int>>, trs: map<int, string>)
    requires sorted == [TextEntry(2, "Cart"), TextEntry(1, "it's")]
    requires trs == map[1 := "c'est", 2 := "Panier"]
    ensures Body(sorted, trs) == "    'Cart' => 'Panier',\n" + "    'it\\'s' => 'c\\'est',\n"
  {
    BodyOfTwo(sorted[0], sorted[1], trs);
    assert sorted == [sorted[0], sorted[1]];
    CartLine();
    QuotedLine();
  }

  lemma BodyOfTwo<K>(a: TextEntry<K>, b: TextEntry<K>, trs: map<K, string>)
    requires a.key in trs && b.key in trs
    ensures Body([a, b], trs) == EntryLine(a.text, trs[a.key]) + EntryLine(b.text, trs[b.key])
  {
    assert [a, b][1..] == [b];
    assert Body([b], trs) == EntryLine(b.text, trs[b.key]) + "";
  }

  lemma PlainLine(text: string, translation: string)
    requires '\'' !in text && '\'' !in translation
    ensures EntryLine(text, translation) == "    '" + text + "' => '" + translation + "',\n"
  {
    EscapeWithoutQuote(text);
    EscapeWithoutQuote(translation);
  }

  lemma CartLine()
    ensures EntryLine("Cart", "Panier") == "    'Cart' => 'Panier',\n"
  {
    PlainLine("Cart", "Panier");
  }

  lemma BeeLine()
    ensures EntryLine("B", "bee") == "    'B' => 'bee',\n"
  {
    PlainLine("B", "bee");
  }

  lemma QuotedLine()
    ensures EntryLine("it's", "c'est") == "    'it\\'s' => 'c\\'est',\n"
  {
    QuoteEscaped();
  }

  lemma QuoteEscaped()
    ensures Escape("it's") == "it\\'s"
    ensures Escape("c'est") == "c\\'est"
  {
    EscapeWithoutQuote("s");
    assert Escape("'s") == "\\'s";
    assert Escape("t's") == "t\\'s";
    EscapeWithoutQuote("est");
    assert Escape("'est") == "\\'est";
  }
}
